=== FILE: README.md ===
# Vulkan bootstrap, modelled in Dafny

This project models the decision logic of a small Vulkan start-up program
(`main.cpp`): the validation-layer gate, the aggregation of instance
extensions, the creation of the instance, the debug-utils messenger whose two
entry points are resolved by name at run time, the queue-family scan and the
choice of a physical device, and the order in which `run` acquires and
`cleanup` releases its resources.

Everything GLFW and the Vulkan loader decide enters as plain data (module
`Bootstrap`, datatype `Host`): the layer names the host reports, GLFW's
required extension list, the host's answer to `vkCreateInstance` (a function of
the request), the set of entry-point names `vkGetInstanceProcAddr` resolves,
the result the resolved messenger-create entry point returns, and the
enumerated devices with their queue families. The compile-time switch
`enableValidationLayers` (`NDEBUG`) is a parameter. A run is a pure function
returning the observable steps it took (`Lifecycle.Event`) and the error that
stopped it, if any.

Modules, one per component:

- `Wrappers` — `Option` and `Result`.
- `Vk` — result codes, `uint32_t`, queue-family properties, devices, names.
- `Errors` — one error per `std::runtime_error` the program throws.
- `LayerRegistry` — `checkValidationLayerSupport`.
- `Extensions` — `getRequiredExtensions`.
- `QueueFamilies` — `QueueFamilyIndices`, `findQueueFamilies`, `isDeviceSuitable`.
- `DeviceSelection` — `pickPhysicalDevice`.
- `DebugMessenger` — the two proc-address wrappers and `setupDebugMessenger`.
- `InstanceFactory` — `createInstance` and the request it builds.
- `Lifecycle` — the events of a run and the state machine they must follow
  (window, instance, optional messenger, device, event loop, then release in
  reverse order with the messenger nested inside the instance).
- `Bootstrap` — `initVulkan`, `cleanup`, `run`, and the end-to-end properties.

## Model

| member | source | states |
|---|---|---|
| `LayerRegistry.LayerFound` | main.cpp:125-134 | the inner scan reports a match exactly when the name occurs, as an exact string, among the available layer names |
| `LayerRegistry.CheckValidationLayerSupport` | main.cpp:112-140 | the check is true iff every requested name is among the available names (a subset test); true for an empty request, false for a non-empty request against no available layers |
| `LayerRegistry.SupportDependsOnlyOnNames` | main.cpp:121-139 | the verdict depends only on which names occur on each side, not on their order or repetitions |
| `LayerRegistry.MissingLayerRefused` | main.cpp:136-137 | one requested name the host lacks is enough to refuse the whole request |
| `Extensions.GetRequiredExtensions` | main.cpp:90-109 | the list starts with GLFW's list unchanged, is exactly one longer when validation is on, and that extra last element is the debug-utils extension name |
| `Extensions.AggregationShape` | main.cpp:99-108 | validation off: exactly GLFW's list; validation on: GLFW's list followed by the debug-utils name |
| `Extensions.DebugExtensionPresence` | main.cpp:99-106 | no deduplication: the debug-utils name is present iff validation is on or GLFW already listed it |
| `Vk.ToUint32` | main.cpp:183 | the `uint32_t` cast of a size keeps the size whenever it fits in 32 bits and never exceeds it |
| `QueueFamilies.IsComplete` | main.cpp:199-202 | a recorded index 0 counts as complete (absent and 0 are distinct states), and absent is incomplete |
| `QueueFamilies.ScanFrom` | main.cpp:217-233 | the scan from index i returns the first index at or after i whose family has queues and the graphics bit, and nothing only when no such family exists |
| `QueueFamilies.FindQueueFamilies` | main.cpp:205-236 | `graphicsFamily` is the smallest index with queueCount > 0 and the graphics bit, and is absent iff no family qualifies |
| `QueueFamilies.IsDeviceSuitable` | main.cpp:237-241 | a device is suitable iff some family of it has queues and the graphics bit, i.e. iff `graphicsFamily` is present |
| `QueueFamilies.ScanFindsFirst` | main.cpp:220-233 | any index that is the first qualifying family is exactly the index recorded |
| `QueueFamilies.ZeroQueueFamilySkipped` | main.cpp:225-226 | for families `[{0, graphics}, {4, graphics}]` the recorded index is 1: a zero-queue family never matches |
| `QueueFamilies.FamilyZeroIsComplete` | main.cpp:199-202 | a recorded index 0 is present and makes the indices complete and the device suitable |
| `QueueFamilies.LaterFamiliesIgnored` | main.cpp:228-230 | the scan breaks at the first match: families after it never change the answer |
| `DeviceSelection.SelectFrom` | main.cpp:253-260 | the selection loop returns the first suitable device index at or after i, and nothing only when none is suitable |
| `DeviceSelection.PickPhysicalDevice` | main.cpp:243-263 | "No GPU found" iff there are no devices; "no suitable GPU" iff there are devices and none is suitable; otherwise the chosen device is the first suitable one in enumeration order |
| `DeviceSelection.PicksFirstSuitable` | main.cpp:253-260 | the first suitable device is the one chosen, whatever follows it |
| `DeviceSelection.OnlySuitableDeviceChosen` | main.cpp:253-260 | when only device k is suitable, device k is chosen regardless of the others |
| `DeviceSelection.LaterDevicesIgnored` | main.cpp:255-259 | devices enumerated after the chosen one are ignored, even suitable ones |
| `DebugMessenger.CreateDebugUtilsMessenger` | main.cpp:50-62 | an unresolved create entry point yields `VK_ERROR_EXTENSION_NOT_PRESENT`; a resolved one's result is forwarded; success iff resolved and the host succeeds |
| `DebugMessenger.SetupDebugMessenger` | main.cpp:65-87 | validation off: nothing is attempted; validation on: a messenger is created iff the entry point resolves and the host returns success, any other result is a setup failure |
| `DebugMessenger.UnresolvedCreateFailsSetup` | main.cpp:82-85 | with validation on, an unresolvable create entry point fails the setup whatever the host would answer |
| `InstanceFactory.BuildCreateInfo` | main.cpp:168-184 | the request enables the validation layers (count 1) when validation is on and no layer otherwise, and carries the aggregated extension list with its length as count |
| `InstanceFactory.CreateInstance` | main.cpp:154-191 | layer error iff validation is on and a layer is missing; creation error iff the gate passes and the host rejects the request; no other outcome than these two errors or success, so a passing gate and an accepting host give success, carrying the request the host accepted |
| `InstanceFactory.LayerGateBeforeHost` | main.cpp:156-158 | when the gate fails the outcome is the same whatever `vkCreateInstance` would answer: the host is never asked |
| `InstanceFactory.DisabledRequestHasNoDiagnostics` | main.cpp:171-183 | with validation off the request enables no layer and no debug-utils extension (unless GLFW asks for it) |
| `Lifecycle.InstanceReleasedBeforeTermination` | main.cpp:292-294 | every trace that completes the lifecycle destroys the instance strictly before terminating GLFW |
| `Lifecycle.MessengerReleasedBeforeInstance` | main.cpp:288-292 | every completed trace in which a messenger lived destroys it strictly before the instance |
| `Lifecycle.CompleteRunWalks` | main.cpp:269-295 | the full run sequence with a messenger created and destroyed, or neither, is accepted by the lifecycle machine and ends torn down |
| `Bootstrap.FirstRefusal` | main.cpp:154-263 | the error a run must stop with, read off the host's answers in the program's order (layers, instance, messenger, no device, no suitable device); none exactly when the host cooperates at every step |
| `Bootstrap.InitVulkan` | main.cpp:269-274 | `initVulkan` stops with the error of the first step the host refuses, and succeeds exactly when every step is accepted; a layer or instance failure leaves no step behind, a messenger failure leaves only the created instance, and a device failure leaves the instance and (validation on) the messenger |
| `Bootstrap.InitVulkanOnlyAcquires` | main.cpp:269-274 | every step `initVulkan` takes creates the instance or the messenger or selects a device; it releases nothing |
| `Bootstrap.Cleanup` | main.cpp:286-295 | cleanup ends with instance destruction then GLFW termination, and destroys the messenger iff validation is on and the destroy entry point resolves (a failed lookup makes the destroy wrapper a no-op) |
| `Bootstrap.Run` | main.cpp:298-304 | a run starts with the window, fails exactly as `initVulkan` does (with the first refusal, so it succeeds iff the host cooperates), and a successful run ends by destroying the instance and then terminating GLFW |
| `Bootstrap.UnsupportedLayerHaltsRun` | main.cpp:156-158 | a missing validation layer stops the run right after the window: no instance step occurs |
| `Bootstrap.InitVulkanSuccessTrace` | main.cpp:269-274 | when the host cooperates at every step, `initVulkan` creates the instance, then the messenger when validation is on, then selects the first suitable device |
| `Bootstrap.SuccessTrace` | main.cpp:298-304 | when the host cooperates at every step and device k is the first suitable one, the run succeeds and is window, instance, messenger (validation on), device k, event loop, messenger release (when resolvable), instance release, GLFW termination |
| `Bootstrap.FailureSkipsCleanup` | main.cpp:298-304 | a failing run never reaches the event loop or any release step |
| `Bootstrap.DisabledInitIgnoresMessenger` | main.cpp:65-68 | with validation off `initVulkan` creates no messenger and does not depend on the debug-utils entry points |
| `Bootstrap.DisabledRunIgnoresMessenger` | main.cpp:65-68 | with validation off no messenger step occurs and the outcome does not depend on the debug-utils entry points |
| `Bootstrap.SuccessfulRunFollowsLifecycle` | main.cpp:269-295 | a run on a cooperating host (that is, a successful run, by `Run` and `FirstRefusal`) whose messenger can be destroyed follows the lifecycle machine to the torn-down state |
| `Bootstrap.ReleaseOrder` | main.cpp:286-295 | in every run on a cooperating host (every successful run) the instance is destroyed strictly before GLFW terminates, and (when the destroy entry point resolves) the messenger is destroyed strictly before the instance |
| `Bootstrap.UnresolvedDestroyLeaksMessenger` | main.cpp:32-40 | in a successful run with validation on, if the destroy entry point does not resolve, the created messenger is never destroyed |
| `Bootstrap.FailedRunLeaksInstance` | main.cpp:269-274 | a run that fails in messenger setup or device selection has created the instance and never destroys it, and a device-selection failure with validation on has also created the messenger and never destroys it, because the exception skips `cleanup` |
| `Bootstrap.FailedRunStaysInLifecycle` | main.cpp:298-304 | a failed run's steps are a prefix of the lifecycle: nothing happens out of order before the failure |

## Left out

- Window creation, window hints and the `glfwWindowShouldClose`/`glfwPollEvents` loop (main.cpp:143-151, 277-283): external I/O, modelled only as the opaque events `WindowCreated` and `MainLoopExited`. The model assumes the window is eventually closed: every successful `Bootstrap.Run` contains `MainLoopExited` and goes on to `cleanup`, whereas a window that never closes would keep the program in the loop and never reach `cleanup`.
- The Vulkan calls themselves, including the two-call count/fill enumeration idiom and the ignored results of `vkEnumerateInstanceLayerProperties` and `vkEnumeratePhysicalDevices`: replaced by the fields of `Host`.
- `debugCallback` (main.cpp:42-47): it only writes to stderr and returns `VK_FALSE`; it is not called anywhere in the modelled code.
- The messenger's create-info fields (severity and type masks, callback pointer, main.cpp:70-80) and the application-info strings and version macros (main.cpp:160-166): constant data with no decision attached.
- The log line printed after a successful `vkCreateInstance` (main.cpp:190): output only.
- Process exit status and exception propagation out of `main` (main.cpp:307-311): a failure is the `error` of the `Outcome`, and the trace stops there. The program never tears down partial state on failure (`cleanup` is reached only when `initVulkan` returns normally); the model follows it, and `Bootstrap.FailedRunLeaksInstance` states the resulting leaks: the instance, and the messenger when device selection fails with validation on.
- Errors carry no host status code, as in the program; each `Errors.BootError` stands for one `runtime_error` the program throws, and the message texts themselves are not modelled.
- The `VK_NULL_HANDLE` sentinel for the chosen device: the choice is a `Result` carrying the device. Because the program tests the global handle after its loop, a second call would keep an earlier choice; the model covers the single call the program makes.
- The `int` loop counter converted to the `uint32_t` optional in `findQueueFamilies`: indices are `nat`. The counter is a signed `int` while the family count is a `uint32_t`, so the model assumes a device reports fewer than 2^31 families; beyond that the counter would overflow, which the model does not represent.

=== FILE: bootstrap.dfy ===
/** The orchestrator: `run` = window, `initVulkan`, the event loop, `cleanup`.
    Everything the host decides enters through `Host`; a failure raised by any
    step ends the run on the spot, with no cleanup, as the uncaught exception
    does in the program. */
module Bootstrap {
  import opened Wrappers
  import opened Vk
  import opened Errors
  import opened LayerRegistry
  import opened QueueFamilies
  import opened DeviceSelection
  import opened DebugMessenger
  import opened InstanceFactory
  import opened Lifecycle

  /** What the host environment answers during a run. */
  datatype Host = Host(
    availableLayers: seq<string>,                   // vkEnumerateInstanceLayerProperties
    glfwExtensions: seq<string>,                    // glfwGetRequiredInstanceExtensions
    vkCreateInstance: InstanceCreateInfo -> VkResult,
    resolvableProcs: set<string>,                   // names vkGetInstanceProcAddr resolves
    createMessengerResult: VkResult,                // what the resolved create entry point returns
    devices: seq<PhysicalDevice>)                   // vkEnumeratePhysicalDevices

  /** The steps a run performed, and the error that stopped it, if any. */
  datatype Outcome = Outcome(trace: seq<Event>, error: Option<BootError>)

  /** The validation-layer gate lets the run through. */
  predicate LayersPass(enableValidationLayers: bool, host: Host)
  {
    enableValidationLayers ==> IsSubsetOf(VALIDATION_LAYERS, host.availableLayers)
  }

  /** The host accepts the instance request the program builds. */
  predicate InstanceAccepted(enableValidationLayers: bool, host: Host)
  {
    host.vkCreateInstance(BuildCreateInfo(enableValidationLayers, host.glfwExtensions)) == VK_SUCCESS
  }

  /** The messenger step succeeds: skipped, or resolved and accepted by the host. */
  predicate MessengerAttaches(enableValidationLayers: bool, host: Host)
  {
    enableValidationLayers ==> CREATE_MESSENGER_PROC in host.resolvableProcs && host.createMessengerResult == VK_SUCCESS
  }

  /** Some enumerated device has a graphics-capable queue family. */
  predicate SomeDeviceSuitable(host: Host)
  {
    exists k :: 0 <= k < |host.devices| && IsDeviceSuitable(host.devices[k])
  }

  /** Whether every step of a run succeeds, stated directly from the host's answers. */
  predicate HostCooperates(enableValidationLayers: bool, host: Host)
  {
    && LayersPass(enableValidationLayers, host)
    && InstanceAccepted(enableValidationLayers, host)
    && MessengerAttaches(enableValidationLayers, host)
    && SomeDeviceSuitable(host)
  }

  /** The error a run should stop with, read off the host's answers in the
      order the program asks its questions; `None` when every answer is yes. */
  function FirstRefusal(enableValidationLayers: bool, host: Host): (e: Option<BootError>)
    ensures e.None? <==> HostCooperates(enableValidationLayers, host)
  {
    if !LayersPass(enableValidationLayers, host) then Some(ValidationLayersUnavailable)
    else if !InstanceAccepted(enableValidationLayers, host) then Some(InstanceCreationFailed)
    else if !MessengerAttaches(enableValidationLayers, host) then Some(DebugMessengerSetupFailed)
    else if |host.devices| == 0 then Some(NoGpuFound)
    else if !SomeDeviceSuitable(host) then Some(NoSuitableGpu)
    else None
  }

  /** `initVulkan`: instance, then messenger, then device. It stops with the
      error of the first step the host refuses, and succeeds exactly when the
      host cooperates at every step. */
  function InitVulkan(enableValidationLayers: bool, host: Host): (o: Outcome)
    ensures o.error == FirstRefusal(enableValidationLayers, host)
    ensures o.error == Some(ValidationLayersUnavailable) || o.error == Some(InstanceCreationFailed) ==>
      o.trace == []
    ensures o.error == Some(DebugMessengerSetupFailed) ==>
      o.trace == [InstanceCreated(BuildCreateInfo(enableValidationLayers, host.glfwExtensions))]
    ensures o.error == Some(NoGpuFound) || o.error == Some(NoSuitableGpu) ==>
      o.trace == [InstanceCreated(BuildCreateInfo(enableValidationLayers, host.glfwExtensions))]
                 + (if enableValidationLayers then [MessengerCreated] else [])
  {
    match CreateInstance(enableValidationLayers, host.availableLayers, host.glfwExtensions, host.vkCreateInstance)
    case Err(e) => Outcome([], Some(e))
    case Ok(info) =>
      var created := [InstanceCreated(info)];
      match SetupDebugMessenger(enableValidationLayers, host.resolvableProcs, host.createMessengerResult)
      case Err(e) => Outcome(created, Some(e))
      case Ok(attached) =>
        var attachedTrace := created + (if attached then [MessengerCreated] else []);
        match PickPhysicalDevice(host.devices)
        case Err(e) => Outcome(attachedTrace, Some(e))
        case Ok(device) => Outcome(attachedTrace + [DeviceSelected(device)], None)
  }

  /** `cleanup`: messenger (when validation is on and the destroy entry point
      resolves), then instance, then GLFW. */
  function Cleanup(enableValidationLayers: bool, host: Host): (trace: seq<Event>)
    ensures |trace| >= 2 && trace[|trace| - 2..] == [InstanceDestroyed, GlfwTerminated]
    ensures MessengerDestroyed in trace <==>
      enableValidationLayers && DESTROY_MESSENGER_PROC in host.resolvableProcs
  {
    var messenger: seq<Event> :=
      if enableValidationLayers && DestroyDebugUtilsMessenger(host.resolvableProcs) then [MessengerDestroyed] else [];
    assert MessengerDestroyed !in [InstanceDestroyed, GlfwTerminated];
    messenger + [InstanceDestroyed, GlfwTerminated]
  }

  /** `run`: the window comes first; the run fails exactly as `initVulkan`
      does (the window, the event loop and `cleanup` cannot fail), and a
      successful run ends by destroying the instance and terminating GLFW. */
  function Run(enableValidationLayers: bool, host: Host): (o: Outcome)
    ensures |o.trace| > 0 && o.trace[0] == WindowCreated
    ensures o.error == FirstRefusal(enableValidationLayers, host)
    ensures o.error.None? ==>
      |o.trace| >= 2 && o.trace[|o.trace| - 2..] == [InstanceDestroyed, GlfwTerminated]
  {
    var init := InitVulkan(enableValidationLayers, host);
    if init.error.Some? then Outcome([WindowCreated] + init.trace, init.error)
    else
      var cleanup := Cleanup(enableValidationLayers, host);
      var acquired := [WindowCreated] + init.trace + [MainLoopExited];
      LastTwoOfAppend(acquired, cleanup);
      Outcome(acquired + cleanup, None)
  }

  /** An unsupported validation layer stops the run right after the window is
      made: no instance is created and the host is never asked for one. */
  lemma UnsupportedLayerHaltsRun(host: Host)
    requires !IsSubsetOf(VALIDATION_LAYERS, host.availableLayers)
    ensures Run(true, host) == Outcome([WindowCreated], Some(ValidationLayersUnavailable))
  {
  }

  /** `initVulkan` on its success path: instance, messenger when validation is
      on, then the first suitable device `k`. */
  lemma InitVulkanSuccessTrace(enableValidationLayers: bool, host: Host, k: nat)
    requires HostCooperates(enableValidationLayers, host)
    requires IsFirstSuitable(host.devices, k)
    ensures InitVulkan(enableValidationLayers, host).trace ==
      [InstanceCreated(BuildCreateInfo(enableValidationLayers, host.glfwExtensions))]
      + (if enableValidationLayers then [MessengerCreated] else [])
      + [DeviceSelected(host.devices[k])]
  {
    PicksFirstSuitable(host.devices, k);
    var info := BuildCreateInfo(enableValidationLayers, host.glfwExtensions);
    assert CreateInstance(enableValidationLayers, host.availableLayers, host.glfwExtensions, host.vkCreateInstance) == Ok(info);
    assert SetupDebugMessenger(enableValidationLayers, host.resolvableProcs, host.createMessengerResult) == Ok(enableValidationLayers);
  }

  /** When some device is suitable, the index of the first suitable one. */
  ghost function FirstSuitable(host: Host): (k: nat)
    requires SomeDeviceSuitable(host)
    ensures IsFirstSuitable(host.devices, k)
  {
    var r := PickPhysicalDevice(host.devices);
    assert r.Ok?;
    var k: nat :| IsFirstSuitable(host.devices, k) && r.value == host.devices[k];
    k
  }

  /** The success path, step by step: when the host cooperates and device `k`
      is the first suitable one, the run creates the instance, the messenger
      (validation on), selects device `k`, leaves the event loop, then releases
      in reverse order. */
  lemma SuccessTrace(enableValidationLayers: bool, host: Host, k: nat)
    requires HostCooperates(enableValidationLayers, host)
    requires IsFirstSuitable(host.devices, k)
    ensures Run(enableValidationLayers, host).error.None?
    ensures Run(enableValidationLayers, host).trace ==
      CompleteRun(BuildCreateInfo(enableValidationLayers, host.glfwExtensions), host.devices[k],
                   enableValidationLayers, enableValidationLayers && DESTROY_MESSENGER_PROC in host.resolvableProcs)
  {
    var device := host.devices[k];
    PicksFirstSuitable(host.devices, k);
    var init := InitVulkan(enableValidationLayers, host);
    var cleanup := Cleanup(enableValidationLayers, host);
    var detached := enableValidationLayers && DESTROY_MESSENGER_PROC in host.resolvableProcs;
    assert Run(enableValidationLayers, host).trace == [WindowCreated] + init.trace + [MainLoopExited] + cleanup;
    assert init.trace == [InstanceCreated(BuildCreateInfo(enableValidationLayers, host.glfwExtensions))]
      + (if enableValidationLayers then [MessengerCreated] else []) + [DeviceSelected(device)] by {
      InitVulkanSuccessTrace(enableValidationLayers, host, k);
    }
    assert cleanup == (if detached then [MessengerDestroyed] else []) + [InstanceDestroyed, GlfwTerminated];
    CompleteRunFromParts(BuildCreateInfo(enableValidationLayers, host.glfwExtensions), device,
                         enableValidationLayers, detached, init.trace, cleanup);
  }

  /** A run that fails stops where it failed: nothing is torn down. */
  lemma FailureSkipsCleanup(enableValidationLayers: bool, host: Host)
    requires Run(enableValidationLayers, host).error.Some?
    ensures MainLoopExited !in Run(enableValidationLayers, host).trace
    ensures MessengerDestroyed !in Run(enableValidationLayers, host).trace
    ensures InstanceDestroyed !in Run(enableValidationLayers, host).trace
    ensures GlfwTerminated !in Run(enableValidationLayers, host).trace
  {
  }

  /** `initVulkan` only acquires: every step it takes creates the instance or
      the messenger, or selects a device. */
  lemma InitVulkanOnlyAcquires(enableValidationLayers: bool, host: Host)
    ensures forall e :: e in InitVulkan(enableValidationLayers, host).trace ==>
      e.InstanceCreated? || e.MessengerCreated? || e.DeviceSelected?
  {
  }

  /** With validation off, `initVulkan` creates no messenger and does not
      depend on the debug-utils entry points. */
  lemma DisabledInitIgnoresMessenger(host: Host, other: Host)
    requires other == host.(resolvableProcs := other.resolvableProcs, createMessengerResult := other.createMessengerResult)
    ensures MessengerCreated !in InitVulkan(false, host).trace
    ensures InitVulkan(false, host) == InitVulkan(false, other)
  {
    assert SetupDebugMessenger(false, host.resolvableProcs, host.createMessengerResult) == Ok(false);
    assert SetupDebugMessenger(false, other.resolvableProcs, other.createMessengerResult) == Ok(false);
  }

  /** With validation off the messenger is never touched: no messenger step
      occurs, and the outcome does not depend on the debug-utils entry points. */
  lemma DisabledRunIgnoresMessenger(host: Host, resolvable: set<string>, messengerResult: VkResult)
    ensures MessengerCreated !in Run(false, host).trace
    ensures MessengerDestroyed !in Run(false, host).trace
    ensures Run(false, host) == Run(false, host.(resolvableProcs := resolvable, createMessengerResult := messengerResult))
  {
    var other := host.(resolvableProcs := resolvable, createMessengerResult := messengerResult);
    DisabledInitIgnoresMessenger(host, other);
    InitVulkanOnlyAcquires(false, host);
    assert Cleanup(false, host) == Cleanup(false, other) == [InstanceDestroyed, GlfwTerminated];
  }

  /** A successful run (one on a cooperating host) follows the lifecycle from
      its first step to its last, provided the messenger it created can be
      destroyed again. */
  lemma SuccessfulRunFollowsLifecycle(enableValidationLayers: bool, host: Host)
    requires HostCooperates(enableValidationLayers, host)
    requires enableValidationLayers ==> DESTROY_MESSENGER_PROC in host.resolvableProcs
    ensures Walk(Initial, Run(enableValidationLayers, host).trace) == Some(State(Torndown, false))
  {
    var k := FirstSuitable(host);
    SuccessTrace(enableValidationLayers, host, k);
    CompleteRunWalks(BuildCreateInfo(enableValidationLayers, host.glfwExtensions), host.devices[k], enableValidationLayers);
  }

  /** In a successful run (one on a cooperating host), resources are released in reverse order of
      acquisition: the instance before GLFW terminates, and, when the messenger
      can be destroyed, the messenger before the instance. */
  lemma ReleaseOrder(enableValidationLayers: bool, host: Host)
    requires HostCooperates(enableValidationLayers, host)
    ensures Before(Run(enableValidationLayers, host).trace, InstanceDestroyed, GlfwTerminated)
    ensures enableValidationLayers && DESTROY_MESSENGER_PROC in host.resolvableProcs ==>
      Before(Run(enableValidationLayers, host).trace, MessengerDestroyed, InstanceDestroyed)
  {
    var trace := Run(enableValidationLayers, host).trace;
    BeforeAtEnd(trace, InstanceDestroyed, GlfwTerminated);
    if enableValidationLayers && DESTROY_MESSENGER_PROC in host.resolvableProcs {
      var k := FirstSuitable(host);
      SuccessTrace(true, host, k);
      CompleteRunMessengerSteps(BuildCreateInfo(true, host.glfwExtensions), host.devices[k], true, true);
      SuccessfulRunFollowsLifecycle(true, host);
      MessengerReleasedBeforeInstance(Initial, trace);
    }
  }

  /** In a successful run with validation on, if the destroy entry point does
      not resolve, the messenger outlives the instance: it is created and never
      destroyed. */
  lemma UnresolvedDestroyLeaksMessenger(host: Host)
    requires HostCooperates(true, host)
    requires DESTROY_MESSENGER_PROC !in host.resolvableProcs
    ensures MessengerCreated in Run(true, host).trace
    ensures MessengerDestroyed !in Run(true, host).trace
  {
    var k := FirstSuitable(host);
    SuccessTrace(true, host, k);
    CompleteRunMessengerSteps(BuildCreateInfo(true, host.glfwExtensions), host.devices[k], true, false);
  }

  /** A run that fails after the instance exists (in messenger setup or device
      selection) leaks it: the instance was created and is never destroyed. A
      device-selection failure with validation on leaks the messenger as well. */
  lemma FailedRunLeaksInstance(enableValidationLayers: bool, host: Host)
    requires Run(enableValidationLayers, host).error.Some?
    requires Run(enableValidationLayers, host).error != Some(ValidationLayersUnavailable)
    requires Run(enableValidationLayers, host).error != Some(InstanceCreationFailed)
    ensures exists info :: InstanceCreated(info) in Run(enableValidationLayers, host).trace
    ensures InstanceDestroyed !in Run(enableValidationLayers, host).trace
    ensures enableValidationLayers && Run(enableValidationLayers, host).error != Some(DebugMessengerSetupFailed) ==>
      MessengerCreated in Run(enableValidationLayers, host).trace &&
      MessengerDestroyed !in Run(enableValidationLayers, host).trace
  {
  }

  /** A failed run stops part-way through the lifecycle without ever taking a
      step out of order. */
  lemma FailedRunStaysInLifecycle(enableValidationLayers: bool, host: Host)
    requires Run(enableValidationLayers, host).error.Some?
    ensures Walk(Initial, Run(enableValidationLayers, host).trace).Some?
  {
    var trace := Run(enableValidationLayers, host).trace;
    var info := BuildCreateInfo(enableValidationLayers, host.glfwExtensions);
    var anyDevice := PhysicalDevice(0, []);
    var complete := CompleteRun(info, anyDevice, enableValidationLayers, enableValidationLayers);
    CompleteRunWalks(info, anyDevice, enableValidationLayers);
    assert trace == complete[..|trace|];
    PrefixWalks(Initial, complete, |trace|);
  }
}

=== FILE: devices.dfy ===
/** Physical-device selection: the first suitable device in enumeration order. */
module DeviceSelection {
  import opened Wrappers
  import opened Vk
  import opened Errors
  import opened QueueFamilies

  /** Reference meaning of "the chosen device": index `k` is suitable and every
      device enumerated before it is not. */
  predicate IsFirstSuitable(devices: seq<PhysicalDevice>, k: nat)
  {
    k < |devices| && IsDeviceSuitable(devices[k]) &&
    forall j :: 0 <= j < k ==> !IsDeviceSuitable(devices[j])
  }

  /** The selection loop from index `i` on; it breaks at the first suitable device. */
  function SelectFrom(devices: seq<PhysicalDevice>, i: nat): (k: Option<nat>)
    requires i <= |devices|
    ensures k.Some? ==>
      i <= k.value < |devices| && IsDeviceSuitable(devices[k.value]) &&
      forall j :: i <= j < k.value ==> !IsDeviceSuitable(devices[j])
    ensures k.None? ==> forall j :: i <= j < |devices| ==> !IsDeviceSuitable(devices[j])
    decreases |devices| - i
  {
    if i == |devices| then None
    else if IsDeviceSuitable(devices[i]) then Some(i)
    else SelectFrom(devices, i + 1)
  }

  /** `pickPhysicalDevice`: no devices at all is one error, devices of which none
      is suitable is another, otherwise the first suitable one is chosen. */
  function PickPhysicalDevice(devices: seq<PhysicalDevice>): (r: Result<PhysicalDevice, BootError>)
    ensures r == Err(NoGpuFound) <==> |devices| == 0
    ensures r == Err(NoSuitableGpu) <==>
      |devices| > 0 && forall j :: 0 <= j < |devices| ==> !IsDeviceSuitable(devices[j])
    ensures r.Ok? ==> exists k: nat :: IsFirstSuitable(devices, k) && r.value == devices[k]
    ensures r.Ok? || r == Err(NoGpuFound) || r == Err(NoSuitableGpu)
  {
    if |devices| == 0 then Err(NoGpuFound)
    else match SelectFrom(devices, 0)
      case None => Err(NoSuitableGpu)
      case Some(k) => assert IsFirstSuitable(devices, k); Ok(devices[k])
  }

  /** The first suitable device is the one chosen, whatever follows it. */
  lemma PicksFirstSuitable(devices: seq<PhysicalDevice>, k: nat)
    requires IsFirstSuitable(devices, k)
    ensures PickPhysicalDevice(devices) == Ok(devices[k])
  {
  }

  /** When only device `k` has a graphics-capable family, device `k` is chosen
      regardless of the others. */
  lemma OnlySuitableDeviceChosen(devices: seq<PhysicalDevice>, k: nat)
    requires k < |devices| && IsDeviceSuitable(devices[k])
    requires forall j :: 0 <= j < |devices| && j != k ==> !IsDeviceSuitable(devices[j])
    ensures PickPhysicalDevice(devices) == Ok(devices[k])
  {
    PicksFirstSuitable(devices, k);
  }

  /** Devices enumerated after the chosen one are ignored, even suitable ones. */
  lemma LaterDevicesIgnored(devices: seq<PhysicalDevice>, more: seq<PhysicalDevice>)
    requires PickPhysicalDevice(devices).Ok?
    ensures PickPhysicalDevice(devices + more) == PickPhysicalDevice(devices)
  {
    var k := SelectFrom(devices, 0).value;
    var extended := devices + more;
    assert IsFirstSuitable(extended, k) by {
      forall j | 0 <= j < k ensures !IsDeviceSuitable(extended[j]) {
        assert extended[j] == devices[j];
      }
    }
    PicksFirstSuitable(extended, k);
  }
}

=== FILE: errors.dfy ===
/** The fatal errors the bootstrap raises, one per `std::runtime_error` it throws. */
module Errors {

  datatype BootError =
    | ValidationLayersUnavailable
    | InstanceCreationFailed
    | DebugMessengerSetupFailed
    | NoGpuFound
    | NoSuitableGpu
}

=== FILE: extensions.dfy ===
/** Extension aggregation: GLFW's required instance extensions, followed by the
    debug-utils extension when validation is on. */
module Extensions {
  import opened Vk

  function GetRequiredExtensions(glfwExtensions: seq<string>, enableValidationLayers: bool): (extensions: seq<string>)
    ensures |extensions| == |glfwExtensions| + (if enableValidationLayers then 1 else 0)
    ensures extensions[..|glfwExtensions|] == glfwExtensions
    ensures enableValidationLayers ==> extensions[|glfwExtensions|] == VK_EXT_DEBUG_UTILS_EXTENSION_NAME
  {
    if enableValidationLayers then glfwExtensions + [VK_EXT_DEBUG_UTILS_EXTENSION_NAME]
    else glfwExtensions
  }

  /** With validation off the list is GLFW's own, element for element; with it
      on, it is GLFW's list plus exactly one trailing name. */
  lemma AggregationShape(glfwExtensions: seq<string>, enableValidationLayers: bool)
    ensures !enableValidationLayers ==> GetRequiredExtensions(glfwExtensions, false) == glfwExtensions
    ensures enableValidationLayers ==>
      GetRequiredExtensions(glfwExtensions, true) == glfwExtensions + [VK_EXT_DEBUG_UTILS_EXTENSION_NAME]
  {
  }

  /** No deduplication: the debug-utils name is in the list exactly when
      validation is on or GLFW already asked for it. */
  lemma DebugExtensionPresence(glfwExtensions: seq<string>, enableValidationLayers: bool)
    ensures VK_EXT_DEBUG_UTILS_EXTENSION_NAME in GetRequiredExtensions(glfwExtensions, enableValidationLayers)
            <==> enableValidationLayers || VK_EXT_DEBUG_UTILS_EXTENSION_NAME in glfwExtensions
  {
    AggregationShape(glfwExtensions, enableValidationLayers);
  }
}

=== FILE: instance.dfy ===
/** Instance creation: the validation-layer gate, the creation request with its
    layer and extension lists, and the host's verdict on it. */
module InstanceFactory {
  import opened Wrappers
  import opened Vk
  import opened Errors
  import opened LayerRegistry
  import opened Extensions

  /** `validationLayers`: the layers requested when validation is on. */
  const VALIDATION_LAYERS: seq<string> := ["VK_LAYER_LUNARG_standard_validation"]

  /** The parts of `VkInstanceCreateInfo` the program fills in from its lists:
      each list with its `uint32_t` count. */
  datatype InstanceCreateInfo = InstanceCreateInfo(
    enabledLayerCount: uint32,
    enabledLayerNames: seq<string>,
    enabledExtensionCount: uint32,
    enabledExtensionNames: seq<string>)

  /** The request handed to `vkCreateInstance`. */
  function BuildCreateInfo(enableValidationLayers: bool, glfwExtensions: seq<string>): (info: InstanceCreateInfo)
    ensures info.enabledLayerCount == (if enableValidationLayers then 1 else 0)
    ensures info.enabledLayerNames == (if enableValidationLayers then VALIDATION_LAYERS else [])
    ensures info.enabledLayerCount == |info.enabledLayerNames|
    ensures info.enabledExtensionNames == GetRequiredExtensions(glfwExtensions, enableValidationLayers)
    ensures |info.enabledExtensionNames| < 0x1_0000_0000 ==>
      info.enabledExtensionCount == |info.enabledExtensionNames|
  {
    var extensions := GetRequiredExtensions(glfwExtensions, enableValidationLayers);
    InstanceCreateInfo(
      if enableValidationLayers then ToUint32(|VALIDATION_LAYERS|) else 0,
      if enableValidationLayers then VALIDATION_LAYERS else [],
      ToUint32(|extensions|),
      extensions)
  }

  /** `createInstance`. `vkCreateInstance` stands for the host: given the
      request, it answers with a result code. On success the value is the
      request the host accepted. */
  function CreateInstance(
    enableValidationLayers: bool,
    availableLayers: seq<string>,
    glfwExtensions: seq<string>,
    vkCreateInstance: InstanceCreateInfo -> VkResult)
    : (r: Result<InstanceCreateInfo, BootError>)
    ensures r == Err(ValidationLayersUnavailable) <==>
      enableValidationLayers && !IsSubsetOf(VALIDATION_LAYERS, availableLayers)
    ensures r == Err(InstanceCreationFailed) <==>
      (!enableValidationLayers || IsSubsetOf(VALIDATION_LAYERS, availableLayers)) &&
      vkCreateInstance(BuildCreateInfo(enableValidationLayers, glfwExtensions)) != VK_SUCCESS
    ensures r.Ok? || r == Err(ValidationLayersUnavailable) || r == Err(InstanceCreationFailed)
    ensures r.Ok? ==>
      r.value == BuildCreateInfo(enableValidationLayers, glfwExtensions) && vkCreateInstance(r.value) == VK_SUCCESS
  {
    if enableValidationLayers && !CheckValidationLayerSupport(VALIDATION_LAYERS, availableLayers) then
      Err(ValidationLayersUnavailable)
    else
      var info := BuildCreateInfo(enableValidationLayers, glfwExtensions);
      if vkCreateInstance(info) != VK_SUCCESS then Err(InstanceCreationFailed)
      else Ok(info)
  }

  /** The layer gate runs before the host is asked: when it fails, the outcome is
      the same whatever `vkCreateInstance` would have answered. */
  lemma LayerGateBeforeHost(
    availableLayers: seq<string>,
    glfwExtensions: seq<string>,
    host1: InstanceCreateInfo -> VkResult,
    host2: InstanceCreateInfo -> VkResult)
    requires !IsSubsetOf(VALIDATION_LAYERS, availableLayers)
    ensures CreateInstance(true, availableLayers, glfwExtensions, host1)
         == CreateInstance(true, availableLayers, glfwExtensions, host2)
         == Err(ValidationLayersUnavailable)
  {
  }

  /** With validation off, the request enables no layer and, unless GLFW itself
      asks for it, not the debug-utils extension either. */
  lemma DisabledRequestHasNoDiagnostics(glfwExtensions: seq<string>)
    requires VK_EXT_DEBUG_UTILS_EXTENSION_NAME !in glfwExtensions
    ensures BuildCreateInfo(false, glfwExtensions).enabledLayerCount == 0
    ensures VK_EXT_DEBUG_UTILS_EXTENSION_NAME !in BuildCreateInfo(false, glfwExtensions).enabledExtensionNames
  {
    DebugExtensionPresence(glfwExtensions, false);
  }
}

=== FILE: layers.dfy ===
/** Layer registry: does the host offer every layer the program asks for? */
module LayerRegistry {

  /** Reference meaning of "supported": each requested name occurs, as an exact
      string, among the names the host reports. */
  predicate IsSubsetOf(requested: seq<string>, available: seq<string>)
  {
    forall i :: 0 <= i < |requested| ==> requested[i] in available
  }

  /** The inner loop: scan the available layers in order for an exact match
      (`strcmp(...) == 0`), stopping at the first one. */
  function LayerFound(name: string, available: seq<string>): (found: bool)
    ensures found <==> name in available
  {
    if |available| == 0 then false
    else if name == available[0] then true
    else LayerFound(name, available[1..])
  }

  /** The outer loop: walk the requested layers in order and give up on the
      first one the host does not report. */
  function CheckValidationLayerSupport(requested: seq<string>, available: seq<string>): (supported: bool)
    ensures supported <==> IsSubsetOf(requested, available)
    ensures |requested| == 0 ==> supported
    ensures |requested| > 0 && |available| == 0 ==> !supported
  {
    if |requested| == 0 then true
    else if !LayerFound(requested[0], available) then false
    else CheckValidationLayerSupport(requested[1..], available)
  }

  /** The answer depends only on which names occur on each side: neither the
      order nor repetitions of the requested or the available names matter. */
  lemma SupportDependsOnlyOnNames(r1: seq<string>, a1: seq<string>, r2: seq<string>, a2: seq<string>)
    requires forall n :: n in r1 <==> n in r2
    requires forall n :: n in a1 <==> n in a2
    ensures CheckValidationLayerSupport(r1, a1) == CheckValidationLayerSupport(r2, a2)
  {
    if CheckValidationLayerSupport(r1, a1) {
      forall i | 0 <= i < |r2| ensures r2[i] in a2 {
        assert r2[i] in r1;
      }
    }
    if CheckValidationLayerSupport(r2, a2) {
      forall i | 0 <= i < |r1| ensures r1[i] in a1 {
        assert r1[i] in r2;
      }
    }
  }

  /** A request naming a layer the host lacks is refused, whatever else it names. */
  lemma MissingLayerRefused(requested: seq<string>, available: seq<string>, name: string)
    requires name in requested && name !in available
    ensures !CheckValidationLayerSupport(requested, available)
  {
  }
}

=== FILE: lifecycle.dfy ===
/** The observable steps of a run and the lifecycle they must follow: resources
    are acquired in a fixed order and released in the reverse order, with the
    messenger's lifetime nested inside the instance's. */
module Lifecycle {
  import opened Wrappers
  import opened Vk
  import opened InstanceFactory

  /** One step of a run, as an outside observer would log it. The window and the
      event loop are opaque to the model. */
  datatype Event =
    | WindowCreated
    | InstanceCreated(info: InstanceCreateInfo)
    | MessengerCreated
    | DeviceSelected(device: PhysicalDevice)
    | MainLoopExited
    | MessengerDestroyed
    | InstanceDestroyed
    | GlfwTerminated

  /** How far a run has got. `LoopFinished` is the state after the event loop
      has returned; the releases happen from there. */
  datatype Phase =
    | Uninitialized
    | WindowOpen
    | InstanceLive
    | DiagnosticsAttached
    | DeviceChosen
    | LoopFinished
    | InstanceReleased
    | Torndown

  /** Where a run stands, and whether a messenger is currently alive. */
  datatype State = State(phase: Phase, messengerLive: bool)

  const Initial: State := State(Uninitialized, false)

  /** A messenger can only be alive between its creation and the release of the
      instance. */
  predicate Consistent(s: State)
  {
    s.messengerLive ==> s.phase in {DiagnosticsAttached, DeviceChosen, LoopFinished}
  }

  /** The allowed transitions; `None` marks a step taken out of order. */
  function Step(s: State, e: Event): Option<State>
  {
    match e
    case WindowCreated =>
      if s.phase == Uninitialized then Some(State(WindowOpen, false)) else None
    case InstanceCreated(_) =>
      if s.phase == WindowOpen then Some(State(InstanceLive, false)) else None
    case MessengerCreated =>
      if s.phase == InstanceLive then Some(State(DiagnosticsAttached, true)) else None
    case DeviceSelected(_) =>
      if s.phase == InstanceLive || s.phase == DiagnosticsAttached then Some(State(DeviceChosen, s.messengerLive))
      else None
    case MainLoopExited =>
      if s.phase == DeviceChosen then Some(State(LoopFinished, s.messengerLive)) else None
    case MessengerDestroyed =>
      if s.phase == LoopFinished && s.messengerLive then Some(State(LoopFinished, false)) else None
    case InstanceDestroyed =>
      if s.phase == LoopFinished && !s.messengerLive then Some(State(InstanceReleased, false)) else None
    case GlfwTerminated =>
      if s.phase == InstanceReleased then Some(State(Torndown, false)) else None
  }

  /** Replays a trace from `s`; `None` if some step is not allowed. */
  function Walk(s: State, trace: seq<Event>): Option<State>
    decreases |trace|
  {
    if |trace| == 0 then Some(s)
    else match Step(s, trace[0])
      case None => None
      case Some(s') => Walk(s', trace[1..])
  }

  /** Replaying a concatenation replays its halves one after the other. */
  lemma {:induction false} WalkAppend(s: State, a: seq<Event>, b: seq<Event>)
    ensures Walk(s, a + b) == (match Walk(s, a) case None => None case Some(m) => Walk(m, b))
    decreases |a|
  {
    if |a| == 0 {
      assert a + b == b;
    } else {
      assert (a + b)[0] == a[0];
      assert (a + b)[1..] == a[1..] + b;
      match Step(s, a[0])
      case None =>
      case Some(s') => WalkAppend(s', a[1..], b);
    }
  }

  /** `a` occurs strictly before `b` in the trace. */
  predicate Before(trace: seq<Event>, a: Event, b: Event)
  {
    exists i, j :: 0 <= i < j < |trace| && trace[i] == a && trace[j] == b
  }

  /** `Before` survives putting an event in front of the trace. */
  lemma BeforeCons(e: Event, rest: seq<Event>, a: Event, b: Event)
    requires Before(rest, a, b)
    ensures Before([e] + rest, a, b)
  {
    var i, j :| 0 <= i < j < |rest| && rest[i] == a && rest[j] == b;
    assert ([e] + rest)[i + 1] == a && ([e] + rest)[j + 1] == b;
  }

  /** An event at the head of the trace comes before everything in its tail. */
  lemma BeforeHead(trace: seq<Event>, a: Event, b: Event)
    requires |trace| > 0 && trace[0] == a && b in trace[1..]
    ensures Before(trace, a, b)
  {
    var j :| 0 <= j < |trace[1..]| && trace[1..][j] == b;
    assert trace[j + 1] == b;
  }

  /** Appending to the front leaves the last two steps alone. */
  lemma LastTwoOfAppend(a: seq<Event>, b: seq<Event>)
    requires |b| >= 2
    ensures (a + b)[|a + b| - 2..] == b[|b| - 2..]
  {
  }

  /** The last two steps of a trace come one before the other. */
  lemma BeforeAtEnd(trace: seq<Event>, a: Event, b: Event)
    requires |trace| >= 2 && trace[|trace| - 2..] == [a, b]
    ensures Before(trace, a, b)
  {
    assert trace[|trace| - 2..][0] == trace[|trace| - 2];
    assert trace[|trace| - 2..][1] == trace[|trace| - 1];
  }

  /** Every trace that completes the lifecycle destroys the instance before it
      terminates GLFW. */
  lemma {:induction false} InstanceReleasedBeforeTermination(s: State, trace: seq<Event>)
    requires Walk(s, trace) == Some(State(Torndown, false))
    requires s.phase != Torndown && s.phase != InstanceReleased
    ensures Before(trace, InstanceDestroyed, GlfwTerminated)
    decreases |trace|
  {
    assert |trace| > 0;
    var s' := Step(s, trace[0]).value;
    var rest := trace[1..];
    assert trace == [trace[0]] + rest;
    if trace[0] == InstanceDestroyed {
      GlfwClosesReleasedWalk(s', rest);
      BeforeHead(trace, InstanceDestroyed, GlfwTerminated);
    } else {
      InstanceReleasedBeforeTermination(s', rest);
      BeforeCons(trace[0], rest, InstanceDestroyed, GlfwTerminated);
    }
  }

  /** Every trace that completes the lifecycle, and in which a messenger was
      alive at some point, destroys the messenger before the instance. */
  lemma {:induction false} MessengerReleasedBeforeInstance(s: State, trace: seq<Event>)
    requires Walk(s, trace) == Some(State(Torndown, false))
    requires s.phase != Torndown && s.phase != InstanceReleased
    requires Consistent(s)
    requires s.messengerLive || MessengerCreated in trace
    ensures Before(trace, MessengerDestroyed, InstanceDestroyed)
    decreases |trace|
  {
    assert |trace| > 0;
    var s' := Step(s, trace[0]).value;
    var rest := trace[1..];
    assert trace == [trace[0]] + rest;
    if trace[0] == MessengerDestroyed {
      InstanceReleasedBeforeTermination(s', rest);
      BeforeHead(trace, MessengerDestroyed, InstanceDestroyed);
    } else if trace[0] == InstanceDestroyed {
      NoMessengerAfterRelease(s', rest);
      assert false;
    } else {
      MessengerReleasedBeforeInstance(s', rest);
      BeforeCons(trace[0], rest, MessengerDestroyed, InstanceDestroyed);
    }
  }

  /** From `InstanceReleased`, the only way to finish is to terminate GLFW. */
  lemma GlfwClosesReleasedWalk(s: State, trace: seq<Event>)
    requires s.phase == InstanceReleased
    requires Walk(s, trace) == Some(State(Torndown, false))
    ensures GlfwTerminated in trace
  {
  }

  /** Once the instance is released, no messenger can be created any more. */
  lemma {:induction false} NoMessengerAfterRelease(s: State, trace: seq<Event>)
    requires s.phase == InstanceReleased || s.phase == Torndown
    requires Walk(s, trace).Some?
    ensures MessengerCreated !in trace
    decreases |trace|
  {
    if |trace| > 0 {
      NoMessengerAfterRelease(Step(s, trace[0]).value, trace[1..]);
      assert trace == [trace[0]] + trace[1..];
    }
  }

  /** The trace of a run that goes all the way: acquire window, instance,
      optionally a messenger, a device; run; release. */
  function CompleteRun(info: InstanceCreateInfo, device: PhysicalDevice, attached: bool, detached: bool): seq<Event>
  {
    [WindowCreated, InstanceCreated(info)]
    + (if attached then [MessengerCreated] else [])
    + [DeviceSelected(device), MainLoopExited]
    + (if detached then [MessengerDestroyed] else [])
    + [InstanceDestroyed, GlfwTerminated]
  }

  /** A complete run creates a messenger exactly when it attaches one, and
      destroys one exactly when it detaches one. */
  lemma CompleteRunMessengerSteps(info: InstanceCreateInfo, device: PhysicalDevice, attached: bool, detached: bool)
    ensures MessengerCreated in CompleteRun(info, device, attached, detached) <==> attached
    ensures MessengerDestroyed in CompleteRun(info, device, attached, detached) <==> detached
  {
    var m: seq<Event> := if attached then [MessengerCreated] else [];
    var d: seq<Event> := if detached then [MessengerDestroyed] else [];
    var trace := CompleteRun(info, device, attached, detached);
    assert trace == [WindowCreated, InstanceCreated(info)] + m + [DeviceSelected(device), MainLoopExited] + d
                    + [InstanceDestroyed, GlfwTerminated];
    if attached { assert trace[2] == MessengerCreated; }
    if detached { assert trace[|trace| - 3] == MessengerDestroyed; }
  }

  /** `CompleteRun` assembled from what `initVulkan` and `cleanup` contribute. */
  lemma CompleteRunFromParts(info: InstanceCreateInfo, device: PhysicalDevice, attached: bool, detached: bool,
                             init: seq<Event>, cleanup: seq<Event>)
    requires init == [InstanceCreated(info)] + (if attached then [MessengerCreated] else []) + [DeviceSelected(device)]
    requires cleanup == (if detached then [MessengerDestroyed] else []) + [InstanceDestroyed, GlfwTerminated]
    ensures [WindowCreated] + init + [MainLoopExited] + cleanup == CompleteRun(info, device, attached, detached)
  {
  }

  /** Replays a trace that is a single step. */
  lemma WalkOne(s: State, e: Event)
    ensures Walk(s, [e]) == Step(s, e)
  {
    assert [e][1..] == [];
  }

  /** Replays a trace of two steps. */
  lemma WalkTwo(s: State, e1: Event, e2: Event)
    ensures Walk(s, [e1, e2]) == match Step(s, e1) case None => None case Some(m) => Step(m, e2)
  {
    assert [e1, e2] == [e1] + [e2];
    WalkAppend(s, [e1], [e2]);
    WalkOne(s, e1);
    if Step(s, e1).Some? {
      WalkOne(Step(s, e1).value, e2);
    }
  }

  /** A run that destroys the messenger it created completes the lifecycle. */
  lemma CompleteRunWalks(info: InstanceCreateInfo, device: PhysicalDevice, live: bool)
    ensures Walk(Initial, CompleteRun(info, device, live, live)) == Some(State(Torndown, false))
  {
    var m: seq<Event> := if live then [MessengerCreated] else [];
    var a: seq<Event> := [WindowCreated, InstanceCreated(info)];
    var b: seq<Event> := [DeviceSelected(device), MainLoopExited];
    var d: seq<Event> := if live then [MessengerDestroyed] else [];
    var c: seq<Event> := [InstanceDestroyed, GlfwTerminated];
    var attached := State(if live then DiagnosticsAttached else InstanceLive, live);
    assert CompleteRun(info, device, live, live) == a + (m + (b + (d + c)));
    WalkTwo(Initial, WindowCreated, InstanceCreated(info));
    WalkAppend(Initial, a, m + (b + (d + c)));
    if live { WalkOne(State(InstanceLive, false), MessengerCreated); }
    WalkAppend(State(InstanceLive, false), m, b + (d + c));
    WalkTwo(attached, DeviceSelected(device), MainLoopExited);
    WalkAppend(attached, b, d + c);
    if live { WalkOne(State(LoopFinished, true), MessengerDestroyed); }
    WalkAppend(State(LoopFinished, live), d, c);
    WalkTwo(State(LoopFinished, false), InstanceDestroyed, GlfwTerminated);
  }

  /** Every prefix of a replayable trace is replayable. */
  lemma PrefixWalks(s: State, trace: seq<Event>, n: nat)
    requires n <= |trace| && Walk(s, trace).Some?
    ensures Walk(s, trace[..n]).Some?
  {
    assert trace == trace[..n] + trace[n..];
    WalkAppend(s, trace[..n], trace[n..]);
  }
}

=== FILE: messenger.dfy ===
/** The debug-utils messenger: its two entry points belong to an extension, so
    the program resolves them by name at run time and copes with their absence. */
module DebugMessenger {
  import opened Wrappers
  import opened Vk
  import opened Errors

  /** `CreateDebugUtilsMessengerEXT`. `resolvable` is the set of names for which
      `vkGetInstanceProcAddr` yields an entry point; `hostResult` is what the
      resolved entry point returns when called. */
  function CreateDebugUtilsMessenger(resolvable: set<string>, hostResult: VkResult): (result: VkResult)
    ensures CREATE_MESSENGER_PROC !in resolvable ==> result == VK_ERROR_EXTENSION_NOT_PRESENT
    ensures CREATE_MESSENGER_PROC in resolvable ==> result == hostResult
    ensures result == VK_SUCCESS <==> CREATE_MESSENGER_PROC in resolvable && hostResult == VK_SUCCESS
  {
    if CREATE_MESSENGER_PROC in resolvable then hostResult
    else VK_ERROR_EXTENSION_NOT_PRESENT
  }

  /** `DestroyDebugUtilsMessengerEXT`: whether the host's destroy entry point is
      actually called. A failed lookup makes it a silent no-op; what that means
      for a run is stated by `Bootstrap.Cleanup`. */
  function DestroyDebugUtilsMessenger(resolvable: set<string>): bool
  {
    DESTROY_MESSENGER_PROC in resolvable
  }

  /** `setupDebugMessenger`: `Ok(true)` when a messenger was created, `Ok(false)`
      when validation is off and nothing was attempted, an error on any result
      other than `VK_SUCCESS`. */
  function SetupDebugMessenger(enableValidationLayers: bool, resolvable: set<string>, hostResult: VkResult)
    : (r: Result<bool, BootError>)
    ensures r == Ok(false) <==> !enableValidationLayers
    ensures r == Ok(true) <==>
      enableValidationLayers && CREATE_MESSENGER_PROC in resolvable && hostResult == VK_SUCCESS
    ensures r.Err? ==> r.error == DebugMessengerSetupFailed
  {
    if !enableValidationLayers then Ok(false)
    else if CreateDebugUtilsMessenger(resolvable, hostResult) != VK_SUCCESS then Err(DebugMessengerSetupFailed)
    else Ok(true)
  }

  /** With validation on, an unresolvable create entry point is a setup failure,
      whatever the host would have answered. */
  lemma UnresolvedCreateFailsSetup(resolvable: set<string>, hostResult: VkResult)
    requires CREATE_MESSENGER_PROC !in resolvable
    ensures SetupDebugMessenger(true, resolvable, hostResult) == Err(DebugMessengerSetupFailed)
  {
  }
}

=== FILE: queues.dfy ===
/** Queue-family scan: which family of a device, if any, can run graphics work. */
module QueueFamilies {
  import opened Wrappers
  import opened Vk

  /** `QueueFamilyIndices`: the graphics family index, explicitly optional so
      that "family 0" and "no family" are different states. */
  datatype QueueFamilyIndices = QueueFamilyIndices(graphicsFamily: Option<nat>)

  /** `QueueFamilyIndices::isComplete`: complete once any index is recorded,
      index 0 included; the absent marker alone is incomplete. */
  function IsComplete(indices: QueueFamilyIndices): (complete: bool)
    ensures indices.graphicsFamily == Some(0) ==> complete
    ensures indices.graphicsFamily == None ==> !complete
  {
    indices.graphicsFamily.Some?
  }

  /** A family qualifies when it has at least one queue and its flags include the
      graphics bit. */
  predicate SupportsGraphics(family: QueueFamilyProperties)
  {
    family.queueCount > 0 && (family.queueFlags & VK_QUEUE_GRAPHICS_BIT) != 0
  }

  /** Reference meaning of the scan's answer: `i` is the smallest qualifying index. */
  predicate IsFirstGraphicsFamily(families: seq<QueueFamilyProperties>, i: nat)
  {
    i < |families| && SupportsGraphics(families[i]) &&
    forall j :: 0 <= j < i ==> !SupportsGraphics(families[j])
  }

  /** The scan loop from index `i` on: record the first qualifying family and stop. */
  function ScanFrom(families: seq<QueueFamilyProperties>, i: nat): (graphicsFamily: Option<nat>)
    requires i <= |families|
    ensures graphicsFamily.Some? ==>
      i <= graphicsFamily.value < |families| && SupportsGraphics(families[graphicsFamily.value]) &&
      forall j :: i <= j < graphicsFamily.value ==> !SupportsGraphics(families[j])
    ensures graphicsFamily.None? ==> forall j :: i <= j < |families| ==> !SupportsGraphics(families[j])
    decreases |families| - i
  {
    if i == |families| then None
    else if SupportsGraphics(families[i]) then Some(i)
    else ScanFrom(families, i + 1)
  }

  function FindQueueFamilies(device: PhysicalDevice): (indices: QueueFamilyIndices)
    ensures indices.graphicsFamily.Some? ==> IsFirstGraphicsFamily(device.queueFamilies, indices.graphicsFamily.value)
    ensures indices.graphicsFamily.None? <==>
      forall j :: 0 <= j < |device.queueFamilies| ==> !SupportsGraphics(device.queueFamilies[j])
  {
    QueueFamilyIndices(ScanFrom(device.queueFamilies, 0))
  }

  /** A device is suitable exactly when some family of it qualifies. */
  function IsDeviceSuitable(device: PhysicalDevice): (suitable: bool)
    ensures suitable <==> exists j :: 0 <= j < |device.queueFamilies| && SupportsGraphics(device.queueFamilies[j])
  {
    IsComplete(FindQueueFamilies(device))
  }

  /** The recorded index is THE smallest qualifying index: any index meeting the
      reference definition is the one the scan returns. */
  lemma ScanFindsFirst(device: PhysicalDevice, i: nat)
    requires IsFirstGraphicsFamily(device.queueFamilies, i)
    ensures FindQueueFamilies(device).graphicsFamily == Some(i)
  {
  }

  /** A family with no queues is skipped even when it carries the graphics bit:
      `[{0, graphics}, {4, graphics}]` yields index 1. */
  lemma ZeroQueueFamilySkipped(handle: nat)
    ensures FindQueueFamilies(PhysicalDevice(handle, [
              QueueFamilyProperties(0, VK_QUEUE_GRAPHICS_BIT),
              QueueFamilyProperties(4, VK_QUEUE_GRAPHICS_BIT)])).graphicsFamily == Some(1)
  {
    var device := PhysicalDevice(handle, [
      QueueFamilyProperties(0, VK_QUEUE_GRAPHICS_BIT),
      QueueFamilyProperties(4, VK_QUEUE_GRAPHICS_BIT)]);
    ScanFindsFirst(device, 1);
  }

  /** Index 0, once recorded, makes the indices complete. */
  lemma FamilyZeroIsComplete(device: PhysicalDevice)
    requires |device.queueFamilies| > 0 && SupportsGraphics(device.queueFamilies[0])
    ensures FindQueueFamilies(device) == QueueFamilyIndices(Some(0))
    ensures IsDeviceSuitable(device)
  {
    ScanFindsFirst(device, 0);
  }

  /** The scan stops at the first match: families listed after it never change
      the answer. */
  lemma LaterFamiliesIgnored(device: PhysicalDevice, more: seq<QueueFamilyProperties>)
    requires IsComplete(FindQueueFamilies(device))
    ensures FindQueueFamilies(PhysicalDevice(device.handle, device.queueFamilies + more)) == FindQueueFamilies(device)
  {
    var i := FindQueueFamilies(device).graphicsFamily.value;
    var extended := PhysicalDevice(device.handle, device.queueFamilies + more);
    assert IsFirstGraphicsFamily(extended.queueFamilies, i) by {
      forall j | 0 <= j < i ensures !SupportsGraphics(extended.queueFamilies[j]) {
        assert extended.queueFamilies[j] == device.queueFamilies[j];
      }
    }
    ScanFindsFirst(extended, i);
  }
}

=== FILE: vulkan.dfy ===
/** The slice of the Vulkan API surface the bootstrap touches, as plain values:
    result codes, queue-family properties, physical devices and the names of the
    layer, extension and entry points the program asks for by string. */
module Vk {

  /** `uint32_t`, the width of every count and flag word the API exchanges. */
  type uint32 = x: int | 0 <= x < 0x1_0000_0000

  /** `static_cast<uint32_t>` of a container size: keeps the low 32 bits. */
  function ToUint32(n: nat): (r: uint32)
    ensures n < 0x1_0000_0000 ==> r == n
    ensures r <= n
  {
    n % 0x1_0000_0000
  }

  /** `VkResult` is a signed enumeration; only two of its values matter here. */
  type VkResult = int

  const VK_SUCCESS: VkResult := 0
  const VK_ERROR_EXTENSION_NOT_PRESENT: VkResult := -7

  /** `VkQueueFlags` and the one bit the device selector tests. */
  type QueueFlags = bv32

  const VK_QUEUE_GRAPHICS_BIT: QueueFlags := 0x1

  /** One entry of `vkGetPhysicalDeviceQueueFamilyProperties`. */
  datatype QueueFamilyProperties = QueueFamilyProperties(queueCount: uint32, queueFlags: QueueFlags)

  /** A physical device as the host enumerates it: an opaque handle and the
      queue-family list the host reports for it. */
  datatype PhysicalDevice = PhysicalDevice(handle: nat, queueFamilies: seq<QueueFamilyProperties>)

  /** `VK_EXT_DEBUG_UTILS_EXTENSION_NAME`. */
  const VK_EXT_DEBUG_UTILS_EXTENSION_NAME: string := "VK_EXT_debug_utils"

  /** Names passed to `vkGetInstanceProcAddr` for the two debug-utils entry points. */
  const CREATE_MESSENGER_PROC: string := "vkCreateDebugUtilsMessengerEXT"
  const DESTROY_MESSENGER_PROC: string := "vkDestroyDebugUtilsMessengerEXT"
}

=== FILE: wrappers.dfy ===
/** `Option` and `Result` as used throughout the model: `Option` for values
    the program keeps in a `std::optional` or a null-able handle, `Result` for
    operations that either succeed or throw. */
module Wrappers {

  /** A present/absent marker; `None` is a distinct state, never a sentinel value. */
  datatype Option<+T> = None | Some(value: T)

  /** The outcome of a fallible step: its value, or the error it raised. */
  datatype Result<+T, +E> = Ok(value: T) | Err(error: E)
}
